=== FILE: README.md ===
# Motion-detection monitor of neolink, in Dafny

This project models `NeoCamMdThread`, the task in neolink that listens to one
camera's motion messages and publishes the latest motion state for the rest
of the program. The task holds a single-slot "latest value" cell (a tokio
`watch` channel) with an `MdState`. It starts as `Unknown`. A `MotionStatus::Start`
message replaces it with `Start(at, classification)`, a `Stop` message with
`Stop(at)`, and `NoChange` leaves it alone. Around this the task runs two loops:

- an ingest loop that opens a motion listener on the camera, consumes its
  messages, and on any error drops the session, sleeps one second and reopens;
- a broker that answers `MdRequest::Get` requests, in arrival order, with a
  receiver on the slot.

`run` races these loops against a cancellation token. `Drop` triggers that token.

The model is sequential. The monitor's state is the slot, the ingest phase
(`NoSession`, `Listening` or `Backoff`), the request queue, the handles
delivered so far, whether any request sender is still alive, the
cancellation token and the run status. An explicit trace of actions drives
it: open-ok, open-err, event, read-err, backoff-elapsed, request, serve,
channel-closed and cancel. The order of the trace stands for any
interleaving the async scheduler could pick. The outcomes of the camera calls
are trace actions rather than code.

Files:
- `camera.dfy` (module `Camera`): the camera's `MotionStatus` vocabulary, timestamps, `Option`.
- `motion.dfy` (module `Motion`): `MdState`, how one message maps onto the slot, the fold over a message sequence, and the loop over one session.
- `broker.dfy` (module `Broker`): `MdRequest`, the delivered handles, and the filter of live requests.
- `mdthread.dfy` (module `MdThread`): the monitor state machine, `run` as a fold over an action trace, `Drop`, and the lemmas about whole runs.

## Model

| member | source | states |
|---|---|---|
| Motion.StateOf | src/common/mdthread.rs:79-95 | A Start message publishes a `Start` state with the same timestamp and classification, including an absent classification. A Stop message publishes a `Stop` state with its timestamp. Neither ever publishes `Unknown`. |
| Motion.Apply | src/common/mdthread.rs:78-101 | NoChange leaves the slot exactly as it was. Start and Stop replace it with a state of the same kind and timestamp, and a Start keeps its classification. The result is `Unknown` only if the slot already was `Unknown` and the message was NoChange. |
| Motion.Ingest | src/common/mdthread.rs:76-101 | Folding messages in order never produces `Unknown` from a known slot. When the last message is a Start or Stop, the slot is that message's state. |
| Motion.NoChangeKeepsSlot | src/common/mdthread.rs:98-100 | A run of NoChange messages of any length leaves the slot unchanged. |
| Motion.LastChangeWins | src/common/mdthread.rs:78-101 | After any message sequence, the slot is the state of the last Start/Stop message. It does not depend on the earlier slot, on earlier messages, or on the NoChange messages that followed. |
| Motion.SlotFromUnknown | src/common/mdthread.rs:78-101 | Starting from `Unknown`, the slot stays `Unknown` iff every message was NoChange. Otherwise it equals the state of the last Start/Stop message. |
| Motion.IngestAppend | src/common/mdthread.rs:76-101 | Folding two consecutive runs of messages gives the same slot as folding their concatenation, so the fold can be split at any point, for example at a session boundary. |
| Motion.ConsumeSession | src/common/mdthread.rs:76-102 | The per-session loop leaves the slot equal to the in-order fold of the messages it consumed. |
| Broker.LiveIds | src/common/mdthread.rs:58-64 | A request gets a handle iff its receiver is still waiting. Requests whose receivers are gone are skipped without effect. |
| MdThread.New | src/common/mdthread.rs:35-47 | A new monitor's slot is `Unknown`, with no session, no queued requests, no handles delivered, the token not cancelled, and the run in progress. |
| MdThread.IngestStep | src/common/mdthread.rs:70-107 | The ingest loop never touches the queue, the handles, the token or the run status, so it never ends the run. An error from opening a session or from reading the next message ends the session and starts the backoff. Only a successful open starts listening, and only an elapsed backoff leads to a new open attempt. A message is consumed only while a session is listening. Only a consumed message can change the slot. Once the run has finished, the loop does nothing. |
| MdThread.ServeStep | src/common/mdthread.rs:58-68 | One broker poll removes the oldest request. If that request's receiver is alive, it appends a handle holding the slot's current value. A poll of an empty queue with a sender still alive changes nothing. A poll of an empty queue with every sender gone ends the run with `Ok`, and nothing else ends it. Once the run has finished, polls do nothing. A poll never touches the cancellation token or the channel's open flag. |
| MdThread.Step | src/common/mdthread.rs:53-109 | Only a consumed event changes the slot. Cancelling a running monitor ends the run with `Ok`, and so does polling an empty queue after the channel closed. These are the only two ways the run finishes, and it never finishes with an error. Once the run has finished, it stays finished, serves no more handles and consumes no more messages. Dropping the last sender closes the channel for good. A request on an open channel joins the tail of the queue. A request on a closed channel changes nothing. Only a cancellation touches the token: requests, polls, channel closure and the ingest loop leave it unchanged. |
| MdThread.Drop | src/common/mdthread.rs:113-118 | Dropping the monitor cancels its token and changes nothing else: not the slot, the session, the queue, the handles or the run status. |
| MdThread.SlotFollowsMessages | src/common/mdthread.rs:70-107 | Along any trace, the slot equals the fold of the consumed messages over its starting value. |
| MdThread.FailuresKeepSlot | src/common/mdthread.rs:70-107 | A trace with no messages leaves the slot unchanged. This covers open and read errors, backoffs, reopens, requests, channel closure and cancellation. |
| MdThread.SlotIsLastChange | src/common/mdthread.rs:39-101 | From construction, the slot is `Unknown` iff no Start/Stop message has been consumed. Otherwise it holds the state of the last one consumed. |
| MdThread.RunConsistent | src/common/mdthread.rs:53-68 | Every action preserves this invariant: a finished run returned `Ok`, and either the token was cancelled or every sender is gone with the queue drained. |
| MdThread.RunNeverFails | src/common/mdthread.rs:53-68 | No trace makes `run` return an error. If it returns, it returns `Ok`, and the token was cancelled or the request channel was closed. |
| MdThread.RunsUntilCancelOrClose | src/common/mdthread.rs:53-108 | Without a cancel or a channel closure, `run` never finishes, however the camera behaves. |
| MdThread.NoSessionNoMessages | src/common/mdthread.rs:71-77 | Without a session, no message is consumed and no session starts listening until an open succeeds. |
| MdThread.BackoffHolds | src/common/mdthread.rs:104-106 | During the backoff, no new session is opened and no message is consumed until the delay has elapsed. |
| MdThread.ReadErrEndsSession | src/common/mdthread.rs:76-106 | After a read error, and until the backoff elapses, the loop stays in backoff, consumes no message and leaves the slot unchanged. |
| MdThread.ClosingEndsRun | src/common/mdthread.rs:58-68 | From any running state, dropping the last sender and letting the broker poll until the queue is drained ends the run with `Ok`. So the closure path is reachable from every running state, including a freshly constructed monitor. |
| MdThread.ClosureEndsRun | src/common/mdthread.rs:58-68 | Once the channel is closed, a running monitor drains its queue with one poll per request, and the next poll ends the run with `Ok`. |
| MdThread.RetriesWithoutLimit | src/common/mdthread.rs:70-107 | Any number of failed opens, each followed by the backoff, changes nothing. The next successful open resumes listening with the slot intact. There is no retry limit. |
| MdThread.SessionLossRecovers | src/common/mdthread.rs:75-107 | A read error puts the loop into the backoff. When the backoff elapses, the loop is back to opening a session with everything else unchanged. After any number of failed reopens, a successful open returns the monitor to exactly the state it had while listening. |
| MdThread.BrokerIsFifo | src/common/mdthread.rs:58-66 | The queue is always the unserved tail of the requests that arrived. The delivered handles answer exactly the served requests with live receivers, in arrival order. |

## Left out

- tokio `select!` scheduling and the `watch`, `mpsc` and `oneshot` channel internals: the slot is one value, the request channel is a FIFO sequence, and an interleaving is a trace of actions.
- The request channel's capacity is chosen by the caller and is not part of this model. The queue is unbounded, so back-pressure on senders is not modelled.
- `NeoInstance::run_passive_task`, `listen_on_motion`, `next_motion` and the camera session layer are foreign code. Their outcomes are the trace actions open-ok, open-err, event and read-err. A message that arrives while no session is listening is a no-op, because the source cannot produce one.
- The `at.into()` conversion to `Instant`, the one-second `sleep` and real time are not modelled. Timestamps are opaque values and the backoff is an abstract "delay elapsed" step.
- Logging, the warning about a missing classification and `anyhow` context strings are left out. They have no effect on the state.
- MdThread.Step: the Cancel action on a running monitor models the cancellation branch of `run` (lines 54-56), which the code contains. It cannot fire while `run` executes. The token is a private field, and only `Drop` cancels it. `Drop` cannot happen while `run` holds its exclusive borrow of the monitor.
- MdThread.New: construction and the start of `run` are one step. The caller creates the request receiver (line 36), so it may already hold `Get` requests or have no senders left. `New()` starts with an empty, open queue, and those cases are covered as `New()` followed by `Request` and `CloseChannel` actions, which leave the slot alone. The token cannot be cancelled before `run` starts, because only `Drop` cancels it and `Drop` ends the monitor's life. The slot's value after `Drop`, and reads through handles after that, are not modelled.
- Reads through a delivered handle at a later time return the slot's value at that time. The model records only the value a handle saw when it was created (`Subscription.seen`) and the slot itself.

=== FILE: broker.dfy ===
/**
  The subscription broker's messages: a request for a read handle on the
  motion slot, and the handle handed back.
 */
module Broker {
  import opened Motion

  /** `MdRequest::Get`.  The one-shot reply channel is represented by an
      identity and by whether its receiver is still waiting; a receiver that
      was dropped makes the reply undeliverable. */
  datatype MdRequest = Get(id: nat, receiverAlive: bool)

  /** A read handle on the slot, delivered in answer to request `request`.
      `seen` is the slot value at the moment the handle was created; later
      reads through the handle observe whatever the slot then holds. */
  datatype Subscription = Subscription(request: nat, seen: MdState)

  /** The identities of the requests whose receivers were still waiting,
      in arrival order: exactly the requests that get a handle. */
  function LiveIds(reqs: seq<MdRequest>): (r: seq<nat>)
    ensures |r| <= |reqs|
    ensures forall id :: id in r <==> exists i :: 0 <= i < |reqs| && reqs[i].receiverAlive && reqs[i].id == id
  {
    if reqs == [] then []
    else
      var init := reqs[..|reqs| - 1];
      var last := reqs[|reqs| - 1];
      var r := LiveIds(init) + (if last.receiverAlive then [last.id] else []);
      assert forall i :: 0 <= i < |init| ==> init[i] == reqs[i];
      r
  }

  /** The request identities the handles `subs` answer, in delivery order. */
  function RequestIds(subs: seq<Subscription>): (r: seq<nat>)
    ensures |r| == |subs|
    ensures forall i :: 0 <= i < |subs| ==> r[i] == subs[i].request
  {
    if subs == [] then [] else RequestIds(subs[..|subs| - 1]) + [subs[|subs| - 1].request]
  }

  lemma {:induction false} LiveIdsAppend(a: seq<MdRequest>, b: seq<MdRequest>)
    ensures LiveIds(a + b) == LiveIds(a) + LiveIds(b)
  {
    if b == [] {
      assert a + b == a;
    } else {
      assert (a + b)[..|a + b| - 1] == a + b[..|b| - 1];
      LiveIdsAppend(a, b[..|b| - 1]);
    }
  }
}

=== FILE: camera.dfy ===
/**
  The vocabulary the camera layer hands to the motion monitor.  The camera
  session itself (opening a listener, awaiting the next message) is foreign
  code; the monitor only ever sees values of these types.
 */
module Camera {

  /** An optional value, as Rust's `Option`. */
  datatype Option<+T> = None | Some(value: T)

  /** A camera timestamp.  The monitor never inspects it, only copies it. */
  datatype Instant = Instant(ticks: int)

  /** One motion message from a camera session.  `Start` carries the AI
      classification the camera attached, if any. */
  datatype MotionStatus =
    | Start(at: Instant, detectionType: Option<string>)
    | Stop(at: Instant)
    | NoChange(at: Instant)
  {
    /** True for the messages that publish a new motion state. */
    predicate IsChange() {
      !NoChange?
    }
  }
}

=== FILE: mdthread.dfy ===
/**
  The motion-detection monitor task: a single-slot publisher of the latest
  motion state, a broker handing out read handles on it, and an ingest loop
  that keeps a camera listening session alive and feeds its messages into
  the slot.  The three branches that `run` races are modelled as one
  sequential state machine driven by an explicit trace of actions; the
  order of actions stands for whatever interleaving the scheduler picks.
 */
module MdThread {
  import opened Camera
  import opened Motion
  import opened Broker

  /** Where the ingest loop stands with respect to the camera session. */
  datatype Phase =
    | NoSession   // about to ask the camera for a motion listener
    | Listening   // holding a session, awaiting its next message
    | Backoff     // the last session failed; waiting the fixed delay

  /** The value `run` returns: `Result<()>`. */
  datatype RunResult = Ok | Err(reason: string)

  /** Whether `run` is still racing its branches or has returned. */
  datatype Status = Running | Finished(result: RunResult)

  /** Everything the monitor holds: the published slot, the ingest loop's
      phase, the request queue, the handles delivered so far, whether any
      request sender is still alive, the cancellation token, and the run
      status. */
  datatype Monitor = Monitor(
    slot: MdState,
    phase: Phase,
    queue: seq<MdRequest>,
    replies: seq<Subscription>,
    channelOpen: bool,
    cancelled: bool,
    status: Status)

  /** One thing that can happen next. */
  datatype Action =
    | OpenOk                      // listen_on_motion succeeded
    | OpenErr                     // listen_on_motion failed
    | Event(e: MotionStatus)      // next_motion returned a message
    | ReadErr                     // next_motion failed
    | BackoffElapsed              // the one-second sleep finished
    | Request(r: MdRequest)       // a caller sent MdRequest::Get
    | Serve                       // the broker polled its queue
    | CloseChannel                // the last request sender was dropped
    | Cancel                      // the cancellation token was triggered
  {
    /** The actions that belong to the ingest loop. */
    predicate IsIngest() {
      OpenOk? || OpenErr? || Event? || ReadErr? || BackoffElapsed?
    }
  }

  /** A freshly constructed monitor whose `run` has just begun. */
  function New(): (m: Monitor)
    ensures m.slot == Unknown
    ensures m.phase == NoSession && m.status == Running && !m.cancelled
    ensures m.queue == [] && m.replies == [] && m.channelOpen
  {
    Monitor(Unknown, NoSession, [], [], true, false, Running)
  }

  /** The ingest loop's transition.  An error from either camera call drops
      the session and leads to the fixed backoff; after it, a new session is
      requested.  There is no retry limit and no transition ends the run. */
  function IngestStep(m: Monitor, a: Action): (r: Monitor)
    requires a.IsIngest()
    ensures r.queue == m.queue && r.replies == m.replies && r.status == m.status
    ensures r.channelOpen == m.channelOpen && r.cancelled == m.cancelled
    ensures !a.Event? ==> r.slot == m.slot
    // an error from either camera call ends the session and starts the backoff
    ensures m.status.Running? && m.phase.NoSession? && a.OpenErr? ==> r.phase == Backoff
    ensures m.status.Running? && m.phase.Listening? && a.ReadErr? ==> r.phase == Backoff
    // only a successful open starts listening, only an elapsed backoff reopens
    ensures m.status.Running? && m.phase.NoSession? && a.OpenOk? ==> r.phase == Listening
    ensures m.status.Running? && m.phase.Backoff? && a.BackoffElapsed? ==> r.phase == NoSession
    ensures r.phase.Listening? && !m.phase.Listening? ==> a.OpenOk? && m.phase.NoSession?
    ensures r.phase.NoSession? && !m.phase.NoSession? ==> a.BackoffElapsed? && m.phase.Backoff?
    ensures r.phase.Backoff? && !m.phase.Backoff? ==> a.OpenErr? || a.ReadErr?
    // a message is consumed only by a listening session
    ensures a.Event? && !m.phase.Listening? ==> r == m
    // once `run` has returned, its ingest branch has been dropped
    ensures m.status.Finished? ==> r == m
  {
    if m.status.Finished? then m
    else
      match a
      case OpenOk => if m.phase.NoSession? then m.(phase := Listening) else m
      case OpenErr => if m.phase.NoSession? then m.(phase := Backoff) else m
      case Event(e) => if m.phase.Listening? then m.(slot := Apply(m.slot, e)) else m
      case ReadErr => if m.phase.Listening? then m.(phase := Backoff) else m
      case BackoffElapsed => if m.phase.Backoff? then m.(phase := NoSession) else m
  }

  /** The broker's transition on one poll of its queue: the oldest request
      gets a handle on the current slot, unless its receiver is gone, in
      which case it is dropped silently.  An empty queue whose senders are
      all gone ends the run with `Ok`. */
  function ServeStep(m: Monitor): (r: Monitor)
    ensures r.slot == m.slot && r.phase == m.phase
    ensures r.cancelled == m.cancelled && r.channelOpen == m.channelOpen
    ensures m.status.Running? && m.queue != [] ==>
      && r.queue == m.queue[1..]
      && r.replies == m.replies + (if m.queue[0].receiverAlive then [Subscription(m.queue[0].id, m.slot)] else [])
    ensures r.status != m.status ==> m.queue == [] && !m.channelOpen && r.status == Finished(Ok)
    ensures m.status.Running? && m.queue == [] && !m.channelOpen ==> r.status == Finished(Ok)
    ensures m.queue == [] && m.channelOpen ==> r == m
    // once `run` has returned, its broker branch has been dropped
    ensures m.status.Finished? ==> r == m
  {
    if m.status.Finished? then m
    else if m.queue != [] then
      var req := m.queue[0];
      m.(queue := m.queue[1..],
         replies := if req.receiverAlive then m.replies + [Subscription(req.id, m.slot)] else m.replies)
    else if !m.channelOpen then m.(status := Finished(Ok))
    else m
  }

  /** One step of the monitor. */
  function Step(m: Monitor, a: Action): (r: Monitor)
    ensures !a.Event? ==> r.slot == m.slot
    ensures a.Event? && m.status.Running? && m.phase.Listening? ==> r.slot == Apply(m.slot, a.e)
    ensures !a.IsIngest() ==> r.phase == m.phase
    ensures m.status.Finished? ==> r.status == m.status
    ensures r.status != m.status ==>
      r.status == Finished(Ok) && (a.Cancel? || (a.Serve? && m.queue == [] && !m.channelOpen))
    ensures a.Cancel? ==> r.cancelled
    // only cancellation touches the token
    ensures !a.Cancel? ==> r.cancelled == m.cancelled
    ensures a.Cancel? && m.status.Running? ==> r.status == Finished(Ok)
    ensures a.Serve? && m.status.Running? && m.queue == [] && !m.channelOpen ==> r.status == Finished(Ok)
    // a finished run serves no handles and consumes no messages
    ensures m.status.Finished? ==> r.slot == m.slot && r.phase == m.phase && r.replies == m.replies
    // dropping the last sender closes the channel for good
    ensures a.CloseChannel? ==> !r.channelOpen
    ensures !m.channelOpen ==> !r.channelOpen
    ensures a.Request? && m.channelOpen ==> r.queue == m.queue + [a.r] && r.replies == m.replies
    ensures a.Request? && !m.channelOpen ==> r == m
  {
    match a
    case Request(req) => if m.channelOpen then m.(queue := m.queue + [req]) else m
    case Serve => ServeStep(m)
    case CloseChannel => m.(channelOpen := false)
    case Cancel => m.(cancelled := true, status := if m.status.Running? then Finished(Ok) else m.status)
    case _ => IngestStep(m, a)
  }

  /** Dropping the monitor triggers its cancellation token and nothing
      else.  `run` borrows the monitor exclusively, so a drop happens only
      once no `run` is being polled any more: it does not end a run. */
  function Drop(m: Monitor): (r: Monitor)
    ensures r.cancelled
    ensures r.slot == m.slot && r.phase == m.phase && r.status == m.status
    ensures r.queue == m.queue && r.replies == m.replies && r.channelOpen == m.channelOpen
  {
    m.(cancelled := true)
  }

  /** The monitor after the actions `t`, in order. */
  function Run(m: Monitor, t: seq<Action>): Monitor {
    if t == [] then m else Step(Run(m, t[..|t| - 1]), t[|t| - 1])
  }

  /** The camera messages the ingest loop actually consumed along `t`:
      those that arrived while a session was listening and the run was
      still going. */
  function Delivered(m: Monitor, t: seq<Action>): seq<MotionStatus> {
    if t == [] then []
    else
      var before := Run(m, t[..|t| - 1]);
      var a := t[|t| - 1];
      Delivered(m, t[..|t| - 1])
        + (if a.Event? && before.status.Running? && before.phase.Listening? then [a.e] else [])
  }

  /** The requests the queue accepted along `t`, in arrival order. */
  function Arrivals(m: Monitor, t: seq<Action>): seq<MdRequest> {
    if t == [] then []
    else
      var before := Run(m, t[..|t| - 1]);
      var a := t[|t| - 1];
      Arrivals(m, t[..|t| - 1]) + (if a.Request? && before.channelOpen then [a.r] else [])
  }

  lemma {:induction false} RunAppend(m: Monitor, a: seq<Action>, b: seq<Action>)
    ensures Run(m, a + b) == Run(Run(m, a), b)
  {
    if b == [] {
      assert a + b == a;
    } else {
      assert (a + b)[..|a + b| - 1] == a + b[..|b| - 1];
      RunAppend(m, a, b[..|b| - 1]);
    }
  }

  /** The slot is the fold of the consumed messages over its starting
      value: nothing but a consumed Start/Stop message ever changes it. */
  lemma {:induction false} SlotFollowsMessages(m: Monitor, t: seq<Action>)
    ensures Run(m, t).slot == Ingest(m.slot, Delivered(m, t))
  {
    if t != [] {
      var init := t[..|t| - 1];
      SlotFollowsMessages(m, init);
      var before := Run(m, init);
      var a := t[|t| - 1];
      if a.Event? && before.status.Running? && before.phase.Listening? {
        var d := Delivered(m, init);
        assert Delivered(m, t) == d + [a.e];
        assert (d + [a.e])[..|d|] == d;
      } else {
        assert Delivered(m, t) == Delivered(m, init);
      }
    }
  }

  /** Session failures, restarts, requests, channel closure and
      cancellation never touch the slot. */
  lemma {:induction false} FailuresKeepSlot(m: Monitor, t: seq<Action>)
    requires forall i :: 0 <= i < |t| ==> !t[i].Event?
    ensures Run(m, t).slot == m.slot
  {
    if t != [] {
      FailuresKeepSlot(m, t[..|t| - 1]);
    }
  }

  /** From construction on, the slot is `Unknown` exactly until a Start or
      Stop message has been consumed, and afterwards holds the state the
      last such message published. */
  lemma {:induction false} SlotIsLastChange(t: seq<Action>, i: int)
    ensures Run(New(), t).slot.Unknown? <==> AllNoChange(Delivered(New(), t))
    ensures IsLastChange(Delivered(New(), t), i) ==> Run(New(), t).slot == StateOf(Delivered(New(), t)[i])
  {
    SlotFollowsMessages(New(), t);
    SlotFromUnknown(Delivered(New(), t));
  }

  /** The run's invariant: it returns only `Ok`, and only after the token
      was cancelled or after every sender is gone and the queue drained. */
  ghost predicate Consistent(m: Monitor) {
    m.status.Finished? ==> m.status.result == Ok && (m.cancelled || (!m.channelOpen && m.queue == []))
  }

  lemma {:induction false} RunConsistent(m: Monitor, t: seq<Action>)
    requires Consistent(m)
    ensures Consistent(Run(m, t))
  {
    if t != [] {
      RunConsistent(m, t[..|t| - 1]);
    }
  }

  /** No trace makes `run` return an error; if it returns, it returns `Ok`
      because of cancellation or closure of the request channel. */
  lemma {:induction false} RunNeverFails(t: seq<Action>)
    ensures Run(New(), t).status.Finished? ==>
      Run(New(), t).status == Finished(Ok) && (Run(New(), t).cancelled || !Run(New(), t).channelOpen)
  {
    RunConsistent(New(), t);
  }

  /** Without cancellation and with a sender still alive, `run` keeps going:
      neither the ingest loop nor the broker completes on its own. */
  lemma {:induction false} RunsUntilCancelOrClose(m: Monitor, t: seq<Action>)
    requires m.status.Running? && m.channelOpen
    requires forall i :: 0 <= i < |t| ==> !t[i].Cancel? && !t[i].CloseChannel?
    ensures Run(m, t).status.Running? && Run(m, t).channelOpen
  {
    if t != [] {
      RunsUntilCancelOrClose(m, t[..|t| - 1]);
    }
  }

  /** Two actions in a row. */
  lemma RunTwo(m: Monitor, x: Action, y: Action)
    ensures Run(m, [x, y]) == Step(Step(m, x), y)
  {
    assert [x, y][..1] == [x];
    assert Run(m, [x]) == Step(m, x) by {
      assert [x][..0] == [];
    }
  }

  /** `n` broker polls. */
  function Polls(n: nat): (t: seq<Action>)
    ensures |t| == n
    ensures n > 0 ==> t == [Serve] + Polls(n - 1)
    ensures forall i :: 0 <= i < |t| ==> t[i] == Serve
  {
    seq(n, _ => Serve)
  }

  /** `n` failed attempts to open a session, each followed by the backoff. */
  function FailedOpens(n: nat): (t: seq<Action>)
    ensures |t| == 2 * n
    ensures forall i :: 0 <= i < |t| ==> t[i] == if i % 2 == 0 then OpenErr else BackoffElapsed
  {
    if n == 0 then [] else FailedOpens(n - 1) + [OpenErr, BackoffElapsed]
  }

  /** However many times opening a session fails, the next success puts the
      ingest loop back to listening, with the slot and everything else as it
      was. */
  lemma {:induction false} RetriesWithoutLimit(m: Monitor, n: nat)
    requires m.status.Running? && m.phase.NoSession?
    ensures Run(m, FailedOpens(n)) == m
    ensures Run(m, FailedOpens(n) + [OpenOk]) == m.(phase := Listening)
  {
    if n > 0 {
      RetriesWithoutLimit(m, n - 1);
      RunAppend(m, FailedOpens(n - 1), [OpenErr, BackoffElapsed]);
      RunTwo(m, OpenErr, BackoffElapsed);
    }
    RunAppend(m, FailedOpens(n), [OpenOk]);
  }

  /** A failed read ends the session; after the backoff and any number of
      failed reopen attempts, listening resumes with the slot untouched. */
  lemma SessionLossRecovers(m: Monitor, n: nat)
    requires m.status.Running? && m.phase.Listening?
    ensures Run(m, [ReadErr]).phase == Backoff
    ensures Run(m, [ReadErr, BackoffElapsed]) == m.(phase := NoSession)
    ensures Run(m, [ReadErr, BackoffElapsed] + FailedOpens(n) + [OpenOk]) == m
  {
    assert [ReadErr][..0] == [];
    var reset := m.(phase := NoSession);
    RunTwo(m, ReadErr, BackoffElapsed);
    RunAppend(m, [ReadErr, BackoffElapsed], FailedOpens(n) + [OpenOk]);
    assert [ReadErr, BackoffElapsed] + FailedOpens(n) + [OpenOk] == [ReadErr, BackoffElapsed] + (FailedOpens(n) + [OpenOk]);
    RetriesWithoutLimit(reset, n);
  }

  lemma {:induction false} DeliveredAppend(m: Monitor, a: seq<Action>, b: seq<Action>)
    ensures Delivered(m, a + b) == Delivered(m, a) + Delivered(Run(m, a), b)
  {
    if b == [] {
      assert a + b == a;
    } else {
      var init := b[..|b| - 1];
      assert (a + b)[..|a + b| - 1] == a + init;
      DeliveredAppend(m, a, init);
      RunAppend(m, a, init);
    }
  }

  /** Outside a session no message is consumed, and none is until a
      session has been opened successfully. */
  lemma {:induction false} NoSessionNoMessages(m: Monitor, t: seq<Action>)
    requires !m.phase.Listening?
    requires forall i :: 0 <= i < |t| ==> !t[i].OpenOk?
    ensures !Run(m, t).phase.Listening?
    ensures Delivered(m, t) == []
  {
    if t != [] {
      NoSessionNoMessages(m, t[..|t| - 1]);
    }
  }

  /** The backoff lasts until its delay has elapsed: meanwhile no session is
      opened and no message is consumed. */
  lemma {:induction false} BackoffHolds(m: Monitor, t: seq<Action>)
    requires m.phase.Backoff?
    requires forall i :: 0 <= i < |t| ==> !t[i].BackoffElapsed?
    ensures Run(m, t).phase.Backoff?
    ensures Delivered(m, t) == []
  {
    if t != [] {
      BackoffHolds(m, t[..|t| - 1]);
    }
  }

  /** A failed read ends the session: from then on nothing is consumed and
      the slot keeps its value until the backoff has elapsed. */
  lemma {:induction false} ReadErrEndsSession(m: Monitor, t: seq<Action>)
    requires m.status.Running? && m.phase.Listening?
    requires forall i :: 0 <= i < |t| ==> !t[i].BackoffElapsed?
    ensures Run(m, [ReadErr] + t).phase.Backoff?
    ensures Delivered(m, [ReadErr] + t) == []
    ensures Run(m, [ReadErr] + t).slot == m.slot
  {
    assert [ReadErr][..0] == [];
    var failed := Run(m, [ReadErr]);
    assert failed == Step(Run(m, []), ReadErr);
    assert failed == Step(m, ReadErr);
    assert failed == IngestStep(m, ReadErr);
    assert failed.phase.Backoff?;
    assert Delivered(m, [ReadErr]) == Delivered(m, []) + [];
    RunAppend(m, [ReadErr], t);
    DeliveredAppend(m, [ReadErr], t);
    BackoffHolds(failed, t);
    SlotFollowsMessages(m, [ReadErr] + t);
  }

  /** Whatever state a running monitor is in, dropping the last sender
      and letting the broker poll until its queue is drained ends the run
      with `Ok`. */
  lemma ClosingEndsRun(m: Monitor)
    requires m.status.Running?
    ensures Run(m, [CloseChannel] + Polls(|m.queue| + 1)).status == Finished(Ok)
  {
    var closed := Step(m, CloseChannel);
    assert [CloseChannel][..0] == [];
    assert Run(m, [CloseChannel]) == closed;
    RunAppend(m, [CloseChannel], Polls(|m.queue| + 1));
    ClosureEndsRun(closed);
  }

  /** On a closed channel the broker drains the queue, one request per poll,
      and the poll after that ends the run with `Ok`. */
  lemma {:induction false} ClosureEndsRun(m: Monitor)
    requires m.status.Running? && !m.channelOpen
    ensures Run(m, Polls(|m.queue| + 1)).status == Finished(Ok)
    decreases |m.queue|
  {
    var first := Step(m, Serve);
    RunAppend(m, [Serve], Polls(|m.queue|));
    assert [Serve][..0] == [];
    assert Run(m, [Serve]) == first;
    if m.queue != [] {
      ClosureEndsRun(first);
    }
  }

  /** `m`'s queue is the unserved tail of `all`, and its handles answer
      the live requests of the served head of `all`, after those of `start`. */
  ghost predicate FifoShape(all: seq<MdRequest>, start: seq<Subscription>, m: Monitor) {
    && |m.queue| <= |all|
    && m.queue == all[|all| - |m.queue|..]
    && RequestIds(m.replies) == RequestIds(start) + LiveIds(all[..|all| - |m.queue|])
  }

  /** Serving the request at position `k` extends the served head by it. */
  lemma ServedHeadGrows(all: seq<MdRequest>, k: int)
    requires 0 <= k < |all|
    ensures LiveIds(all[..k + 1]) == LiveIds(all[..k]) + (if all[k].receiverAlive then [all[k].id] else [])
  {
    assert all[..k + 1][..k] == all[..k];
  }

  lemma RequestIdsSnoc(subs: seq<Subscription>, s: Subscription)
    ensures RequestIds(subs + [s]) == RequestIds(subs) + [s.request]
  {
    assert (subs + [s])[..|subs|] == subs;
  }

  /** Serving the oldest request keeps the FIFO shape. */
  lemma ServeKeepsFifo(all: seq<MdRequest>, start: seq<Subscription>, m: Monitor)
    requires FifoShape(all, start, m)
    ensures FifoShape(all, start, Step(m, Serve))
  {
    assert Step(m, Serve) == ServeStep(m);
    if m.status.Running? && m.queue != [] {
      ServeHeadKeepsFifo(all, start, m);
    } else {
      assert ServeStep(m).queue == m.queue && ServeStep(m).replies == m.replies;
    }
  }

  lemma ServeHeadKeepsFifo(all: seq<MdRequest>, start: seq<Subscription>, m: Monitor)
    requires FifoShape(all, start, m)
    requires m.status.Running? && m.queue != []
    ensures FifoShape(all, start, ServeStep(m))
  {
    var k := |all| - |m.queue|;
    var head := m.queue[0];
    var r := ServeStep(m);
    assert head == all[k];
    assert r.queue == all[k + 1..];
    assert |all| - |r.queue| == k + 1;
    ServedHeadGrows(all, k);
    if head.receiverAlive {
      ServeLiveHead(all, start, m, k);
    } else {
      assert r.replies == m.replies;
    }
  }

  /** The handle for a live head is appended after all earlier ones. */
  lemma ServeLiveHead(all: seq<MdRequest>, start: seq<Subscription>, m: Monitor, k: int)
    requires FifoShape(all, start, m)
    requires m.status.Running? && m.queue != [] && m.queue[0].receiverAlive
    requires k == |all| - |m.queue|
    requires LiveIds(all[..k + 1]) == LiveIds(all[..k]) + [m.queue[0].id]
    ensures RequestIds(ServeStep(m).replies) == RequestIds(start) + LiveIds(all[..k + 1])
  {
    var added := Subscription(m.queue[0].id, m.slot);
    assert ServeStep(m).replies == m.replies + [added];
    RequestIdsSnoc(m.replies, added);
  }

  /** An accepted request joins the tail of the queue. */
  lemma RequestKeepsFifo(all: seq<MdRequest>, start: seq<Subscription>, m: Monitor, req: MdRequest)
    requires FifoShape(all, start, m)
    ensures FifoShape(all + (if m.channelOpen then [req] else []), start, Step(m, Request(req)))
  {
    var r := Step(m, Request(req));
    assert r.replies == m.replies;
    if m.channelOpen {
      var all' := all + [req];
      var k := |all| - |m.queue|;
      assert r.queue == m.queue + [req];
      assert |all'| - |r.queue| == k;
      assert all'[..k] == all[..k];
      assert r.queue == all'[k..];
    } else {
      assert all + [] == all;
    }
  }

  /** The broker serves requests one at a time in arrival order: the queue
      is always the unserved tail of everything that arrived, and the
      delivered handles answer exactly the served requests whose receivers
      were still waiting, in the same order. */
  lemma {:induction false} BrokerIsFifo(m: Monitor, t: seq<Action>)
    ensures FifoShape(m.queue + Arrivals(m, t), m.replies, Run(m, t))
  {
    if t != [] {
      var init := t[..|t| - 1];
      var a := t[|t| - 1];
      BrokerIsFifo(m, init);
      var before := Run(m, init);
      var all0 := m.queue + Arrivals(m, init);
      assert FifoShape(all0, m.replies, before);
      assert Run(m, t) == Step(before, a);
      match a {
        case Request(req) =>
          assert m.queue + Arrivals(m, t) == all0 + (if before.channelOpen then [req] else []);
          RequestKeepsFifo(all0, m.replies, before, req);
        case Serve =>
          assert m.queue + Arrivals(m, t) == all0;
          ServeKeepsFifo(all0, m.replies, before);
        case _ =>
          assert m.queue + Arrivals(m, t) == all0;
          assert Run(m, t).queue == before.queue && Run(m, t).replies == before.replies;
      }
    }
  }
}

=== FILE: motion.dfy ===
/**
  The motion state held by the monitor's single-slot publisher and the way
  each camera message replaces (or keeps) it.
 */
module Motion {
  import opened Camera

  /** The latest known motion condition.  The slot starts out `Unknown`
      and every Start/Stop message fully replaces its value. */
  datatype MdState =
    | Start(at: Instant, detectionType: Option<string>)
    | Stop(at: Instant)
    | Unknown

  /** The state a Start or Stop message publishes.  A Start without a
      classification is still published, with the classification absent. */
  function StateOf(e: MotionStatus): (r: MdState)
    requires e.IsChange()
    ensures !r.Unknown?
    ensures r.at == e.at
    ensures r.Start? <==> e.Start?
    ensures r.Start? ==> r.detectionType == e.detectionType
  {
    match e
    case Start(at, dt) => MdState.Start(at, dt)
    case Stop(at) => MdState.Stop(at)
  }

  /** One message applied to the slot: Start and Stop replace it, NoChange
      keeps it. */
  function Apply(slot: MdState, e: MotionStatus): (r: MdState)
    ensures e.NoChange? ==> r == slot
    ensures e.IsChange() ==> !r.Unknown? && r.at == e.at && (r.Start? <==> e.Start?)
    ensures e.Start? ==> r.detectionType == e.detectionType
    ensures r.Unknown? ==> slot.Unknown? && e.NoChange?
  {
    match e
    case NoChange(_) => slot
    case _ => StateOf(e)
  }

  /** The slot after the messages `es` have been applied in order. */
  function Ingest(slot: MdState, es: seq<MotionStatus>): (r: MdState)
    ensures r.Unknown? ==> slot.Unknown?
    ensures |es| > 0 && es[|es| - 1].IsChange() ==> r == StateOf(es[|es| - 1])
  {
    if es == [] then slot
    else Apply(Ingest(slot, es[..|es| - 1]), es[|es| - 1])
  }

  /** A sequence of messages none of which changes the motion state. */
  ghost predicate AllNoChange(es: seq<MotionStatus>) {
    forall i :: 0 <= i < |es| ==> es[i].NoChange?
  }

  /** `i` is the position of the last Start/Stop message in `es`. */
  ghost predicate IsLastChange(es: seq<MotionStatus>, i: int) {
    0 <= i < |es| && es[i].IsChange() && AllNoChange(es[i + 1..])
  }

  lemma {:induction false} NoChangeKeepsSlot(slot: MdState, es: seq<MotionStatus>)
    requires AllNoChange(es)
    ensures Ingest(slot, es) == slot
  {
    if es != [] {
      var init := es[..|es| - 1];
      assert AllNoChange(init) by {
        forall j | 0 <= j < |init| ensures init[j].NoChange? {
          assert init[j] == es[j];
        }
      }
      NoChangeKeepsSlot(slot, init);
    }
  }

  /** The slot holds what the last Start/Stop message published, whatever
      it held before and whatever NoChange messages followed. */
  lemma {:induction false} LastChangeWins(slot: MdState, es: seq<MotionStatus>, i: int)
    requires IsLastChange(es, i)
    ensures Ingest(slot, es) == StateOf(es[i])
  {
    if i == |es| - 1 {
    } else {
      var init := es[..|es| - 1];
      assert es[|es| - 1] == es[i + 1..][|es| - i - 2];
      assert IsLastChange(init, i) by {
        assert init[i] == es[i];
        var tail := init[i + 1..];
        forall j | 0 <= j < |tail| ensures tail[j].NoChange? {
          assert tail[j] == es[i + 1..][j];
        }
      }
      LastChangeWins(slot, init, i);
    }
  }

  /** The slot after any message sequence, starting from the initial
      `Unknown`: the mapping of the last Start/Stop, or `Unknown` if there
      was none. */
  lemma {:induction false} SlotFromUnknown(es: seq<MotionStatus>)
    ensures Ingest(Unknown, es).Unknown? <==> AllNoChange(es)
    ensures forall i :: IsLastChange(es, i) ==> Ingest(Unknown, es) == StateOf(es[i])
  {
    if AllNoChange(es) {
      NoChangeKeepsSlot(Unknown, es);
    } else {
      LastChangeWins(Unknown, es, LastChangeIndex(es));
    }
    forall i | IsLastChange(es, i) ensures Ingest(Unknown, es) == StateOf(es[i]) {
      LastChangeWins(Unknown, es, i);
    }
  }

  /** The position of the last Start/Stop message of a sequence that has one. */
  function LastChangeIndex(es: seq<MotionStatus>): (i: int)
    requires !AllNoChange(es)
    ensures IsLastChange(es, i)
  {
    if es[|es| - 1].IsChange() then |es| - 1
    else
      var i := LastChangeIndex(es[..|es| - 1]);
      assert es[i + 1..] == es[..|es| - 1][i + 1..] + [es[|es| - 1]];
      i
  }

  /** Folding a sequence split in two is folding the second part over the
      result of the first: the fold may be cut at any point, for example
      where one session's messages end and the next session's begin. */
  lemma {:induction false} IngestAppend(slot: MdState, a: seq<MotionStatus>, b: seq<MotionStatus>)
    ensures Ingest(slot, a + b) == Ingest(Ingest(slot, a), b)
  {
    if b != [] {
      assert (a + b)[..|a + b| - 1] == a + b[..|b| - 1];
      IngestAppend(slot, a, b[..|b| - 1]);
    } else {
      assert a + b == a;
    }
  }

  /** The body of one listening session: awaits messages in order and
      updates the slot for each. */
  method ConsumeSession(slot: MdState, es: seq<MotionStatus>) returns (r: MdState)
    ensures r == Ingest(slot, es)
  {
    r := slot;
    var k := 0;
    while k < |es|
      invariant 0 <= k <= |es|
      invariant r == Ingest(slot, es[..k])
    {
      assert es[..k + 1][..k] == es[..k];
      match es[k] {
        case Start(at, dt) =>
          r := MdState.Start(at, dt);
        case Stop(at) =>
          r := MdState.Stop(at);
        case NoChange(_) =>
      }
      k := k + 1;
    }
    assert es[..k] == es;
  }
}
